=== FILE: README.md ===
# LED game-state controller — Dafny model

The firmware drives a 144-pixel LED strip from a game-state feed. Text
messages arrive over a socket. `flash:<seconds>` starts a white damage
flash, and `localPlayer:<health>` updates a health bar. A drop of health to
zero plays a death animation. Until the first message arrives, the strip
shows a scrolling startup rainbow.

Each pass through the control loop lets the effects update and draw in a
fixed priority order: startup rainbow, then death, then flash, then health
bar.

The model describes this animation core as pure functions over an
immutable state record:

- `GameState.State` holds the firmware's file-level globals.
- `Router.ProcessMessage` is the message handler.
- `Arbiter.Tick` is the animation part of `loop()`. It returns the new
  state together with the frames it pushed to the strip.
- The renderers build full 144-pixel frames:
  - `ColorRamp.HealthBarFrame` draws the health bar.
  - `DeathEffect.DeathFrameAt` draws the blink and fade.
  - `FlashEffect.FlashFrameAt` draws the flash blended over the bar.
  - `Rainbow.RainbowHues` gives the rainbow's hue indices.
- `MainLoop.Run` strings messages and ticks together.

Time is the millisecond clock, passed in as a parameter. Seconds are
`ms / 1000` as exact reals.

The model follows the code as written, including three behaviours that
are easy to miss:

- A `flash:` message during the death animation is accepted
  (`Router.FlashAcceptedDuringDeath`). That flash is drawn once death
  ends, if time is left on it (`Arbiter.FlashResumesAfterDeath`).
- In the tick where death ends, the flash or the health bar is drawn in
  that same tick.
- When a flash runs out, the health bar is not marked for redraw.

The model also keeps these facts about the firmware:

- Out-of-range health values are dropped, not clamped (`Router.HealthMessageDropped`).
- Death starts on any drop from positive health to zero (`Router.DeathTrigger`).
- A tick draws at most one frame, and an idle tick draws none (`Arbiter.IdleTick`).

## Model

| member | source | states |
|---|---|---|
| Numeric.Trunc | src/main.cpp:123 | A C cast of a float to `int` drops the fraction toward zero. The result is within one of the value, on the side nearer zero, for both signs. |
| Numeric.Seconds | src/main.cpp:89 | `millis() / 1000.0` is the exact number of seconds: non-negative, and 1000 times it is the millisecond count. |
| Numeric.FMod | src/main.cpp:102 | For the 0.5 s blink divisor and a non-negative dividend, `fmod` gives a remainder in [0, 0.5). |
| Numeric.ToByte | src/main.cpp:192 | A `uint8_t` cast of an in-range float is the largest byte not above the value. |
| Pixels.Solid | src/main.cpp:107-110 | `fill_solid` gives 144 pixels, every one the given colour. |
| ColorRamp.LitCount | src/main.cpp:206 | The lit count `health*144/100` lies in 0..144 and is the floor of the exact quotient. It is 144 exactly at full health and 0 exactly at zero health. |
| ColorRamp.LitCountMonotone | src/main.cpp:206 | More health never lights fewer pixels. |
| ColorRamp.HealthColor | src/main.cpp:213-227 | Over exact reals, the ramp colour is never black and always has blue 0. Green is 255 with red below 255 exactly above 60%. Red is 255 at or below 60%. The colour is pure red exactly at or below 30%. |
| ColorRamp.RampIntegerForm | src/main.cpp:216-223 | The exact-real ramp truncated to bytes equals the integer formulas `255*(100-h)/40` (green band) and `255*(h-30)/30` (yellow band). |
| ColorRamp.RampMonotone | src/main.cpp:216-227 | Across all three bands, higher health never has more red or less green. |
| ColorRamp.RampBoundaries | src/main.cpp:216-227 | The colours at 100, 61, 60, 31 and 30 show no jump at the 60% and 30% band edges. |
| ColorRamp.HealthBarFrame | src/main.cpp:204-233 | A pixel is non-black exactly when its index is below the lit count. Every lit pixel has the one ramp colour. |
| ColorRamp.HealthBarExamples | src/main.cpp:204-233 | Health 75 lights 108 pixels in colour (159, 255, 0). Full health gives an all-green strip, and zero health a dark one. |
| Rainbow.BaseHue | src/main.cpp:58-61 | The base hue is `floor((ms mod 5000) * 255 / 5000)` and never exceeds 254. |
| Rainbow.PixelOffset | src/main.cpp:66 | The per-pixel hue offset `i*255/144` lies in 0..253. |
| Rainbow.RainbowPeriodic | src/main.cpp:58-66 | The rainbow frame repeats every 5000 ms. |
| Rainbow.RainbowHues | src/main.cpp:58-69 | The frame has 144 hue indices. Pixel 0 carries the base hue, and pixel `i` carries it shifted by `i*255/144`, with `uint8_t` wrap-around. |
| Rainbow.PixelHue | src/main.cpp:58-69 | At any time, pixel `i` shows the base hue advanced by `i*255/144`, wrapped modulo 256. |
| Rainbow.RainbowIsRotation | src/main.cpp:58-69 | At time 0 pixel `i` has hue `i*255/144`. Every frame is that frame turned around the hue wheel by the base hue, with `uint8_t` wrap-around. |
| Rainbow.BaseHueMonotone | src/main.cpp:58-61 | Within one period the base hue only moves forward. |
| Rainbow.OffsetsSpanWheel | src/main.cpp:64-66 | The offsets rise monotonically along the strip, from 0 at the first pixel to 253 at the last. |
| Rainbow.RainbowMoves | src/main.cpp:58-66 | The pattern at 2500 ms differs from the one at 0 ms: the first pixel's hue goes from 0 to 127. |
| DeathEffect.StartDeath | src/main.cpp:77-84 | Starting death marks it active with the current start time and cancels the flash. Nothing else changes. |
| DeathEffect.BlinkSchedule | src/main.cpp:102-103 | In the first 1.5 s, `fmod(elapsed, 0.5) < 0.25` holds exactly in [0, 0.25), [0.5, 0.75) and [1.0, 1.25). |
| DeathEffect.BlinkOn | src/main.cpp:100-103 | During the 1.5 s blink phase the blink is on exactly in [0, 0.25), [0.5, 0.75) and [1.0, 1.25): three blinks. |
| DeathEffect.DarkPerEdge | src/main.cpp:129 | The fade loop runs `min(max(ledsOff, 0), 72)` times: 0 for non-positive `ledsOff`, `ledsOff` within 0..72, and 72 above. |
| DeathEffect.FadeFrame | src/main.cpp:125-132 | The fade frame has 144 pixels, is mirror-symmetric, and every pixel is red or black. A pixel is black exactly when it lies within the loop count of either end. |
| DeathEffect.FadeLoop | src/main.cpp:125-132 | The fill-red-then-blacken-both-ends loop produces exactly `FadeFrame`. |
| DeathEffect.FadeShrinks | src/main.cpp:123-132 | A larger `ledsOff` blacks out a superset of the pixels. |
| DeathEffect.FadeEndpoints | src/main.cpp:125-132 | At `ledsOff` 0 the strip is all red. At 72 it is all black. |
| DeathEffect.LedsOff | src/main.cpp:115-123 | For any easing curve into [0,1], `ledsOff` lies in 0..72. |
| DeathEffect.DeathFrameAt | src/main.cpp:100-132 | A death frame has 144 pixels, is mirror-symmetric and uses only red and black. In the blink phase it is one solid colour, red exactly when the blink is on. In the fade phase it is the edge fade `FadeFrame` for the eased `ledsOff`. |
| DeathEffect.BlinkExamples | src/main.cpp:100-111 | At 0.1 s the strip is all red. At 0.3 s it is all black. |
| DeathEffect.UpdateDeath | src/main.cpp:86-136 | After 3.5 s death ends and marks the health bar. Before that it draws one death frame and changes nothing. It never touches health or startup mode. |
| FlashEffect.StartFlash | src/main.cpp:141-146 | Starting a flash sets it active with the current start time and the given duration. Nothing else changes. |
| FlashEffect.FlashWhite | src/main.cpp:192 | The flash grey is `floor(255 * I)`: 0 at intensity 0 and 255 at intensity 1. |
| FlashEffect.MixIsWeightedSum | src/main.cpp:196-198 | The blend used is the firmware's `white*I + base*(1-I)`. |
| FlashEffect.MixBounds | src/main.cpp:196-198 | A blend lies between its two inputs. |
| FlashEffect.BlendChannel | src/main.cpp:192-198 | A blended channel is the integer part of `white*I + base*(1-I)`, where the grey `white` is itself `(uint8_t)(I*255)`: the intensity is applied twice. So at I = 0.5 pure red blends to (191, 63, 63). The channel lies between the health channel and the flash grey. It equals the health channel at intensity 0 and the grey at intensity 1. |
| FlashEffect.BlendPixel | src/main.cpp:191-198 | Every channel of a blended pixel lies between the health pixel's channel and the flash grey. The pixel is the health pixel at intensity 0 and white at intensity 1. |
| FlashEffect.FlashFrameAt | src/main.cpp:166-199 | The flash frame is the health bar at intensity 0 and all white at intensity 1. Every channel of a lit pixel lies between the ramp colour's channel and the flash grey. Pixels past the lit count are grey, at the level `FlashEffect.UnlitGrey` gives, since the intensity is applied twice. No blue channel exceeds the flash grey. |
| FlashEffect.UnlitGrey | src/main.cpp:191-198 | Past the lit count every pixel's level is the integer part of `FlashWhite(I) * I`: the intensity is applied twice, so at I = 0.5 an unlit pixel is 63, not 127. |
| FlashEffect.UpdateFlash | src/main.cpp:148-202 | Once the duration has elapsed the flash turns off without drawing and without marking the health bar. Before that it draws one frame and changes nothing; that frame is the flash blend of the current health bar at some intensity in [0, 1]. |
| Router.ExitStartup | src/main.cpp:237-241 | Any message ends startup mode. The first message also marks the health bar, and later messages leave both flags alone. |
| Router.OnFlash | src/main.cpp:244-266 | A non-positive duration is ignored. Otherwise a flash is active afterwards and ends at the later of the old and the new end. Only flash fields change. |
| Router.FlashOverlap | src/main.cpp:253-263 | With a flash active, it restarts exactly when the new duration exceeds the remaining time, and is left as it was otherwise. |
| Router.OnHealth | src/main.cpp:268-286 | Out-of-range values and repeats change nothing. A change sets health and marks the bar. Death starts exactly on a drop from positive to zero while no death runs. A running death keeps its start time. |
| Router.ProcessMessage | src/main.cpp:235-287 | After any message startup is off and validity is kept. A running death is never restarted. Death starts only on a `localPlayer:` zero report from positive health. Health changes only on a `localPlayer:` message. |
| Router.PrefixesDisjoint | src/main.cpp:244-268 | No message matches both the `flash:` and the `localPlayer:` prefix. |
| Router.UnknownMessageIgnored | src/main.cpp:235-287 | A message with neither prefix only ends startup. |
| Router.HealthMessageDropped | src/main.cpp:268-286 | A health value outside 0..100, or equal to the current one, changes nothing beyond the startup exit. |
| Router.DeathTrigger | src/main.cpp:279-283 | A message starts death exactly when it is a `localPlayer:` report parsing to 0, health is positive and no death runs. |
| Router.FlashMessage | src/main.cpp:244-266 | A `flash:` message never touches health or death. With a positive duration the flash is active and lasts at least that long. |
| Router.FlashAcceptedDuringDeath | src/main.cpp:244-266 | A flash trigger during death is recorded, and death continues unchanged. |
| Router.DeathPreemptsFlash | src/main.cpp:279-283 | A zero report cancels a running flash, however long it had left. |
| Router.FlashOverlapExample | src/main.cpp:253-263 | With a 2 s flash from 0 s, a 0.5 s trigger at 1 s is ignored, and a 1.5 s trigger at 1 s restarts it. |
| Arbiter.FlashStage | src/main.cpp:423-426 | The flash is updated only when no death runs after the death update. It draws exactly when it stays active. |
| Arbiter.HealthStage | src/main.cpp:428-432 | The bar is drawn exactly when neither death nor flash is active and the bar is marked, and drawing clears the mark. |
| Arbiter.Tick | src/main.cpp:411-432 | A tick draws at most one frame and keeps validity. In startup mode it draws only the rainbow and changes nothing. It never starts death, and while death runs the state is unchanged. A drawn bar shows the current health and clears the mark. |
| Arbiter.TickPriority | src/main.cpp:411-432 | After startup, death draws exactly when it is still running. The bar draws exactly when neither death nor flash runs afterwards and the bar was marked or death just ended. |
| Arbiter.DeathOwnsDisplay | src/main.cpp:420-426 | While death has time left, the tick draws only the death frame and changes nothing, whatever the flash state. |
| Arbiter.DeathEndRedrawsHealth | src/main.cpp:421-432 | In the tick where death ends with no flash pending, the health bar is drawn in that same tick. |
| Arbiter.FlashResumesAfterDeath | src/main.cpp:421-426 | A flash accepted during death that still has time left is drawn in the tick where death ends, and the bar stays marked. |
| Arbiter.FlashEndDrawsNothing | src/main.cpp:155-159 | When a flash runs out and the bar is unmarked, the tick draws nothing. |
| Arbiter.IdleTick | src/main.cpp:411-432 | With nothing running and nothing marked, a tick changes and draws nothing. |
| Arbiter.HealthBarDrawnOnce | src/main.cpp:429-432 | The tick after a health-bar redraw draws nothing. |
| MainLoop.Apply | src/main.cpp:400-436 | A message draws nothing, a tick at most one frame, and both keep validity. |
| MainLoop.Run | src/main.cpp:400-436 | Over any event sequence validity is kept, at most one frame per tick is drawn, and startup once left stays left. |
| MainLoop.StartupUntilFirstMessage | src/main.cpp:235-241 | Startup mode survives a run exactly when no message arrived. |
| MainLoop.RainbowUntilFirstMessage | src/main.cpp:413-418 | Before the first message the state is unchanged, and every tick draws the rainbow for its time. |
| MainLoop.DeathRunsToCompletion | src/main.cpp:279-283 | During the 3.5 s of a death, no message or tick restarts or ends it, and only death frames are drawn. |
| MainLoop.BootShowsFullBar | src/main.cpp:29-45 | The boot state `GameState.Init` (rainbow on, health 100, bar marked, no effect running) is valid. After any first message that is neither a flash nor a health report, the next tick draws an all-green strip and clears the mark. |
| MainLoop.FirstReportScenario | src/main.cpp:235-287 | From boot, `localPlayer:50` ends the rainbow and the next tick draws the half-length bar. |
| MainLoop.DeathScenario | src/main.cpp:77-136 | At health 50, `localPlayer:0` at 10 s starts death. The strip is red at 10.1 s and dark at 10.3 s. At 13.6 s death is over and the empty bar is drawn. |

## Left out

- WiFi, the WebSocket client, `setup`, the reconnect branch of `loop` and `ESP.restart` (src/main.cpp:292-409). These are network I/O and device reset. A delivered text message appears only as a `MainLoop.Event`.
- `FastLED.show`, `addLeds` and `setBrightness`, and the library's HSV-to-RGB conversion. Frames are recorded as values; the rainbow stops at hue indices.
- `Serial` logging and `delay`. They have no effect on state.
- The easing curves `pow(x, 2.5)` and `pow(x, 0.4)`. Each is an arbitrary function into [0, 1] (`Numeric.UnitCurve`), given as a parameter.
- `String::toFloat` and `String::toInt`. They are arbitrary total parsers of the text after the prefix (`Router.Parsers`).
- Floating-point rounding. Floats and `millis() / 1000.0` are exact reals, so results that hinge on single-precision rounding are not modelled.
- The 32-bit wrap-around of `millis()` after about 49 days. Time is an unbounded natural number of milliseconds.
- Numeric.FMod: its contract covers only the one divisor the firmware uses, 0.5 s: the remainder's range there, and in `DeathEffect.BlinkSchedule` the exact blink windows. General divisors are not covered, because division by an unknown real makes the proofs unstable.
- ColorRamp.HealthColor: states the ramp over exact reals, not the single-precision `float` arithmetic of src/main.cpp:213-223. There, 60/100 is stored as 0.60000002, which passes the `> 0.6` test, so health 60 gives red 254 (green band) instead of 255. Green also comes out one lower at health 32, 38, 42, 48, 52 and 58 (for example 16 instead of 17 at 32), and red one lower at 68 and 92. `ColorRamp.RampIntegerForm`, `ColorRamp.RampBoundaries` and `ColorRamp.HealthBarExamples` are about the exact-real ramp as well.

=== FILE: arbiter.dfy ===
/** The animation part of `loop()`: one control-loop tick lets each effect
    update and draw in the fixed priority order Startup, Death, Flash,
    health bar. */
module Arbiter {
  import opened Numeric
  import opened GameState
  import opened ColorRamp
  import opened Rainbow
  import opened DeathEffect
  import opened FlashEffect

  /** Step 3 of the tick: `updateFlashEffect` runs only if no death
      animation is running after step 2. */
  function FlashStage(d: Step, now: real, curve: UnitCurve): (r: Step)
    requires Valid(d.state) && |d.shown| <= 1
    requires d.shown != [] <==> d.state.deathActive
    requires d.shown != [] ==> d.Drew(Death)
    ensures Valid(r.state) && |r.shown| <= 1
    ensures d.state.deathActive ==> r == d
    ensures r.state.deathActive == d.state.deathActive
    ensures r.state.healthChanged == d.state.healthChanged
    ensures r.state.playerHealth == d.state.playerHealth
    ensures r.state.startupMode == d.state.startupMode
    ensures r.Drew(Death) <==> r.state.deathActive
    ensures r.Drew(Flash) <==> !r.state.deathActive && r.state.flashActive
    ensures r.shown == [] <==> !r.state.deathActive && !r.state.flashActive
  {
    if !d.state.deathActive then
      var f := UpdateFlash(d.state, now, curve);
      Step(f.state, d.shown + f.shown)
    else
      d
  }

  /** Step 4 of the tick: the health bar is drawn only when neither death
      nor flash is running and it is marked, and drawing clears the mark. */
  function HealthStage(f: Step): (r: Step)
    requires Valid(f.state) && |f.shown| <= 1
    requires f.shown == [] <==> !f.state.deathActive && !f.state.flashActive
    requires !f.Drew(HealthBar)
    ensures Valid(r.state) && |r.shown| <= 1
    ensures r.state.playerHealth == f.state.playerHealth
    ensures r.state.startupMode == f.state.startupMode
    ensures r.state.deathActive == f.state.deathActive
    ensures r.state.flashActive == f.state.flashActive
    ensures r.state.(healthChanged := f.state.healthChanged) == f.state
    ensures var t := f.state;
      if !t.deathActive && !t.flashActive && t.healthChanged then
        && !r.state.healthChanged
        && r.shown == [HealthFrame(HealthBarFrame(t.playerHealth))]
      else
        r == f
    ensures r.Drew(HealthBar) <==> !f.state.deathActive && !f.state.flashActive && f.state.healthChanged
  {
    var t := f.state;
    if !t.deathActive && !t.flashActive && t.healthChanged then
      Step(t.(healthChanged := false), f.shown + [HealthFrame(HealthBarFrame(t.playerHealth))])
    else
      f
  }

  /** One tick at time `nowMs`. In startup mode only the rainbow is drawn.
      Otherwise death is always updated; the flash only when no death
      animation is running after that; and the health bar only when
      neither is running and it is marked for redraw, which clears the
      mark. */
  function Tick(s: State, nowMs: nat, curves: Curves): (r: Step)
    requires Valid(s)
    ensures Valid(r.state)
    ensures |r.shown| <= 1
    ensures r.state.startupMode == s.startupMode
    ensures r.state.playerHealth == s.playerHealth
    ensures s.startupMode ==> r == Step(s, [RainbowFrame(RainbowHues(nowMs))])
    ensures !s.deathActive ==> !r.state.deathActive
    ensures r.state.deathActive ==> r.state == s
    ensures r.Drew(Flash) ==> r.state.flashActive && !r.state.deathActive
    ensures r.Drew(HealthBar) ==>
      r.shown == [HealthFrame(HealthBarFrame(s.playerHealth))] && !r.state.healthChanged
  {
    if s.startupMode then
      Step(s, [RainbowFrame(RainbowHues(nowMs))])
    else
      var now := Seconds(nowMs);
      var d := UpdateDeath(s, now, curves.deathFade);
      var f := FlashStage(d, now, curves.flashFade);
      HealthStage(f)
  }

  /** Which effect draws in a tick after startup: the death animation
      exactly when it is still running, and the health bar exactly when
      neither death nor flash is running afterwards and the bar was marked
      before the tick or the death animation just ended. */
  lemma TickPriority(s: State, nowMs: nat, curves: Curves)
    requires Valid(s) && !s.startupMode
    ensures var r := Tick(s, nowMs, curves);
      && (r.Drew(Death) <==> r.state.deathActive)
      && (r.Drew(HealthBar) <==>
           !r.state.deathActive && !r.state.flashActive && (s.healthChanged || s.deathActive))
  {
  }

  /** While the death animation has time left it owns the strip: the tick
      draws the death frame and changes nothing, whatever the flash and
      the redraw mark say. */
  lemma DeathOwnsDisplay(s: State, nowMs: nat, curves: Curves)
    requires Valid(s) && !s.startupMode && s.deathActive
    requires Seconds(nowMs) - s.deathStartTime < TotalDuration
    ensures Tick(s, nowMs, curves) ==
      Step(s, [DeathFrame(DeathFrameAt(Seconds(nowMs) - s.deathStartTime, curves.deathFade))])
  {
  }

  /** In the tick where the death animation ends with no flash pending,
      the health bar is drawn in that same tick. */
  lemma DeathEndRedrawsHealth(s: State, nowMs: nat, curves: Curves)
    requires Valid(s) && !s.startupMode && s.deathActive && !s.flashActive
    requires Seconds(nowMs) - s.deathStartTime >= TotalDuration
    ensures Tick(s, nowMs, curves) ==
      Step(s.(deathActive := false, healthChanged := false), [HealthFrame(HealthBarFrame(s.playerHealth))])
  {
  }

  /** A flash that arrived during the death animation and still has time
      left is drawn in the tick where death ends; the health bar stays
      marked and is drawn once the flash is over. */
  lemma FlashResumesAfterDeath(s: State, nowMs: nat, curves: Curves)
    requires Valid(s) && !s.startupMode && s.deathActive && s.flashActive
    requires Seconds(nowMs) - s.deathStartTime >= TotalDuration
    requires Seconds(nowMs) < FlashEnd(s)
    ensures var r := Tick(s, nowMs, curves);
      && r.Drew(Flash)
      && r.state == s.(deathActive := false, healthChanged := true)
  {
  }

  /** When a flash runs out the tick draws nothing and does not mark the
      health bar, so the strip keeps the last flash frame until the next
      health change. */
  lemma FlashEndDrawsNothing(s: State, nowMs: nat, curves: Curves)
    requires Valid(s) && !s.startupMode && !s.deathActive && s.flashActive && !s.healthChanged
    requires Seconds(nowMs) >= FlashEnd(s)
    ensures Tick(s, nowMs, curves) == Step(s.(flashActive := false), [])
  {
  }

  /** With nothing running and nothing marked, a tick is idle: the strip
      is not redrawn. */
  lemma IdleTick(s: State, nowMs: nat, curves: Curves)
    requires Valid(s) && !s.startupMode && !s.deathActive && !s.flashActive && !s.healthChanged
    ensures Tick(s, nowMs, curves) == Step(s, [])
  {
  }

  /** The health bar is drawn once per change: the tick after a health-bar
      redraw draws nothing. */
  lemma HealthBarDrawnOnce(s: State, nowMs: nat, laterMs: nat, curves: Curves)
    requires Valid(s)
    requires Tick(s, nowMs, curves).Drew(HealthBar)
    ensures var t := Tick(s, nowMs, curves).state;
      Tick(t, laterMs, curves) == Step(t, [])
  {
  }
}

=== FILE: color_ramp.dfy ===
/** The health bar: how many pixels are lit for a health percentage and the
    red-yellow-green colour they share (`displayHealthBar`, and the same
    computation repeated inside `updateFlashEffect`). */
module ColorRamp {
  import opened Numeric
  import opened Pixels

  /** `(playerHealth * NUM_LEDS) / 100`: the number of lit pixels. */
  function LitCount(h: int): (n: int)
    requires 0 <= h <= 100
    ensures 0 <= n <= NumLeds
    ensures n * 100 <= h * NumLeds < n * 100 + 100
    ensures h == 100 <==> n == NumLeds
    ensures h == 0 <==> n == 0
  {
    h * NumLeds / 100
  }

  /** The lit count never decreases as health grows. */
  lemma LitCountMonotone(h1: int, h2: int)
    requires 0 <= h1 <= h2 <= 100
    ensures LitCount(h1) <= LitCount(h2)
  {
  }

  /** The colour of every lit pixel: yellow to green above 60%, red to
      yellow above 30%, pure red at or below 30%. The channel values are
      the `uint8_t` conversions of the ramp, computed over exact reals
      rather than single-precision floats. */
  function HealthColor(h: int): (c: RGB)
    requires 0 <= h <= 100
    ensures c.b == 0
    ensures h > 60 <==> c.g == 255 && c.r < 255
    ensures h <= 60 ==> c.r == 255
    ensures h <= 30 <==> c == Red
    ensures c != Black
  {
    var healthPercent := h as real / 100.0;
    if healthPercent > 0.6 then
      var greenIntensity := (healthPercent - 0.6) / 0.4;
      RGB(ToByte(255.0 * (1.0 - greenIntensity)), 255, 0)
    else if healthPercent > 0.3 then
      var yellowIntensity := (healthPercent - 0.3) / 0.3;
      RGB(255, ToByte(255.0 * yellowIntensity), 0)
    else
      Red
  }

  /** The exact-real ramp equals an integer formula: in the green band
      red falls by 255/40 per health point, in the yellow band green rises
      by 255/30 per point. */
  lemma RampIntegerForm(h: int)
    requires 0 <= h <= 100
    ensures h > 60 ==> HealthColor(h) == RGB(255 * (100 - h) / 40, 255, 0)
    ensures 30 < h <= 60 ==> HealthColor(h) == RGB(255, 255 * (h - 30) / 30, 0)
  {
    var healthPercent := h as real / 100.0;
    if h > 60 {
      var greenIntensity := (healthPercent - 0.6) / 0.4;
      assert 255.0 * (1.0 - greenIntensity) == (255 * (100 - h)) as real / 40 as real;
      FloorOfQuotient(255 * (100 - h), 40);
    } else if h > 30 {
      var yellowIntensity := (healthPercent - 0.3) / 0.3;
      assert 255.0 * yellowIntensity == (255 * (h - 30)) as real / 30 as real;
      FloorOfQuotient(255 * (h - 30), 30);
    }
  }

  /** Higher health is never redder and never less green: red falls and
      green rises monotonically across all three bands. */
  lemma {:induction false} RampMonotone(h1: int, h2: int)
    requires 0 <= h1 <= h2 <= 100
    ensures HealthColor(h2).r <= HealthColor(h1).r
    ensures HealthColor(h1).g <= HealthColor(h2).g
  {
    RampIntegerForm(h1);
    RampIntegerForm(h2);
    if h1 > 60 {
      assert 255 * (100 - h2) <= 255 * (100 - h1);
      DivMonotone(255 * (100 - h2), 255 * (100 - h1), 40);
    } else if 30 < h1 && h2 <= 60 {
      assert 255 * (h1 - 30) <= 255 * (h2 - 30);
      DivMonotone(255 * (h1 - 30), 255 * (h2 - 30), 30);
    }
  }

  /** The band boundaries: pure green at full health, yellow at 60%, red
      at 30%, and the first step into each band is small (the ramp has no
      jump at a boundary). */
  lemma RampBoundaries()
    ensures HealthColor(100) == RGB(0, 255, 0)
    ensures HealthColor(61) == RGB(248, 255, 0)
    ensures HealthColor(60) == RGB(255, 255, 0)
    ensures HealthColor(31) == RGB(255, 8, 0)
    ensures HealthColor(30) == Red
  {
    RampIntegerForm(100);
    RampIntegerForm(61);
    RampIntegerForm(60);
    RampIntegerForm(31);
  }

  /** `displayHealthBar`: the first `LitCount(h)` pixels in the ramp colour,
      the rest black. */
  function HealthBarFrame(h: int): (px: seq<RGB>)
    requires 0 <= h <= 100
    ensures |px| == NumLeds
    ensures forall i :: 0 <= i < NumLeds ==> (px[i] != Black <==> i < LitCount(h))
    ensures forall i :: 0 <= i < NumLeds && px[i] != Black ==> px[i] == HealthColor(h)
  {
    var lit, color := LitCount(h), HealthColor(h);
    seq(NumLeds, i => if i < lit then color else Black)
  }

  /** Health 75 lights 108 pixels in the yellow-green band, red channel
      159; full health lights the whole strip green; zero health leaves it
      dark. */
  lemma HealthBarExamples()
    ensures LitCount(75) == 108
    ensures HealthColor(75) == RGB(159, 255, 0)
    ensures HealthBarFrame(100) == Solid(RGB(0, 255, 0))
    ensures HealthBarFrame(0) == Solid(Black)
  {
    RampIntegerForm(75);
    RampBoundaries();
    assert HealthBarFrame(100) == Solid(RGB(0, 255, 0));
    assert HealthBarFrame(0) == Solid(Black);
  }
}

=== FILE: death_effect.dfy ===
/** The death animation (`startDeathAnimation` / `updateDeathAnimation`):
    three red blinks for 1.5 s, then a 2 s fade in which the red collapses
    from both edges toward the centre, then back to the health bar. */
module DeathEffect {
  import opened Numeric
  import opened Pixels
  import opened GameState

  const BlinkDuration: real := 1.5
  const FadeDuration: real := 2.0
  const TotalDuration: real := 3.5
  const BlinkCycle: real := 0.5
  const BlinkOnTime: real := 0.25

  /** `startDeathAnimation`: death begins now and cancels any flash. */
  function StartDeath(s: State, now: real): (r: State)
    ensures r.deathActive && r.deathStartTime == now
    ensures !r.flashActive
    ensures r.(deathActive := s.deathActive, deathStartTime := s.deathStartTime, flashActive := s.flashActive) == s
  {
    s.(deathActive := true, deathStartTime := now, flashActive := false)
  }

  /** Whether the blink phase shows red: `fmod(elapsed, 0.5) < 0.25`.
      Within the 1.5 s blink phase that is the first quarter second of
      every half second: exactly three blinks. */
  function BlinkOn(elapsed: real): (on: bool)
    ensures 0.0 <= elapsed < BlinkDuration ==>
      (on <==> elapsed < 0.25 || 0.5 <= elapsed < 0.75 || 1.0 <= elapsed < 1.25)
  {
    BlinkSchedule(elapsed);
    FMod(elapsed, BlinkCycle) < BlinkOnTime
  }

  /** The `fmod` test of the blink phase, solved for its three on-windows. */
  lemma BlinkSchedule(elapsed: real)
    ensures 0.0 <= elapsed < BlinkDuration ==>
      (FMod(elapsed, BlinkCycle) < BlinkOnTime <==>
        elapsed < 0.25 || 0.5 <= elapsed < 0.75 || 1.0 <= elapsed < 1.25)
  {
    if 0.0 <= elapsed < BlinkDuration {
      var q := Trunc(elapsed / BlinkCycle);
      assert 0.0 <= elapsed / BlinkCycle < 3.0;
      assert 0 <= q <= 2;
      assert FMod(elapsed, BlinkCycle) == elapsed - q as real * BlinkCycle;
      if q == 0 {
        assert elapsed < 0.5;
      } else if q == 1 {
        assert 0.5 <= elapsed < 1.0;
      } else {
        assert 1.0 <= elapsed;
      }
    }
  }

  /** The number of iterations of the fade loop
      `for (i = 0; i < ledsOff && i < NUM_LEDS / 2; i++)`. */
  function DarkPerEdge(ledsOff: int): (k: nat)
    ensures k <= HalfLeds
    ensures 0 <= ledsOff <= HalfLeds ==> k == ledsOff
    ensures ledsOff <= 0 ==> k == 0
    ensures ledsOff >= HalfLeds ==> k == HalfLeds
  {
    if ledsOff <= 0 then 0 else if ledsOff < HalfLeds then ledsOff else HalfLeds
  }

  /** How far pixel `i` is from the nearer end of the strip. */
  function EdgeDistance(i: nat): (d: nat)
    requires i < NumLeds
    ensures d <= i && d <= NumLeds - 1 - i
    ensures d == i || d == NumLeds - 1 - i
  {
    if i <= NumLeds - 1 - i then i else NumLeds - 1 - i
  }

  /** The fade-phase frame: red, except the pixels closer than
      `DarkPerEdge(ledsOff)` to either end, which are black. */
  function FadeFrame(ledsOff: int): (px: seq<RGB>)
    ensures |px| == NumLeds
    ensures Mirrored(px)
    ensures forall i :: 0 <= i < NumLeds ==> px[i] == Red || px[i] == Black
    ensures forall i :: 0 <= i < NumLeds ==>
      (px[i] == Black <==> i < DarkPerEdge(ledsOff) || i > NumLeds - 1 - DarkPerEdge(ledsOff))
  {
    var k := DarkPerEdge(ledsOff);
    seq(NumLeds, i requires 0 <= i < NumLeds => if EdgeDistance(i) < k then Black else Red)
  }

  /** The fade loop as the firmware writes it: fill red, then blacken pixel
      `i` and its mirror `NUM_LEDS - 1 - i` for each loop index. */
  method FadeLoop(ledsOff: int) returns (px: seq<RGB>)
    ensures px == FadeFrame(ledsOff)
  {
    px := Solid(Red);
    var i := 0;
    while i < ledsOff && i < NumLeds / 2
      invariant 0 <= i <= DarkPerEdge(ledsOff)
      invariant |px| == NumLeds
      invariant forall j :: 0 <= j < NumLeds ==>
        px[j] == (if j < i || j > NumLeds - 1 - i then Black else Red)
    {
      px := px[i := Black][NumLeds - 1 - i := Black];
      i := i + 1;
    }
    assert i == DarkPerEdge(ledsOff);
  }

  /** A later fade point darkens a superset of pixels: the red only ever
      shrinks toward the centre. */
  lemma FadeShrinks(a: int, b: int)
    requires a <= b
    ensures forall i :: 0 <= i < NumLeds && FadeFrame(a)[i] == Black ==> FadeFrame(b)[i] == Black
  {
  }

  /** Nothing is dark at the start of the fade; everything is dark once
      half the strip has gone from each side. */
  lemma FadeEndpoints()
    ensures FadeFrame(0) == Solid(Red)
    ensures FadeFrame(HalfLeds) == Solid(Black)
  {
    assert FadeFrame(0) == Solid(Red);
    assert FadeFrame(HalfLeds) == Solid(Black);
  }

  /** `(int)(pow(linearProgress, 0.4) * (NUM_LEDS / 2))`, with the curve
      abstracted; `NUM_LEDS / 2` is the integer 72. */
  function LedsOff(elapsed: real, fade: UnitCurve): (k: int)
    ensures 0 <= k <= HalfLeds
  {
    var fadeTime := elapsed - BlinkDuration;
    var linearProgress := fadeTime / FadeDuration;
    assert HalfLeds as real == 72.0;
    Trunc(Ease(fade, linearProgress) * 72.0)
  }

  /** The frame the death animation draws `elapsed` seconds after it
      began (before its end). */
  function DeathFrameAt(elapsed: real, fade: UnitCurve): (px: seq<RGB>)
    ensures |px| == NumLeds
    ensures Mirrored(px)
    ensures forall i :: 0 <= i < NumLeds ==> px[i] == Red || px[i] == Black
    ensures elapsed < BlinkDuration ==> px == Solid(if BlinkOn(elapsed) then Red else Black)
    ensures elapsed >= BlinkDuration ==> px == FadeFrame(LedsOff(elapsed, fade))
  {
    if elapsed < BlinkDuration then
      Solid(if BlinkOn(elapsed) then Red else Black)
    else
      FadeFrame(LedsOff(elapsed, fade))
  }

  /** At 0.1 s the whole strip is red, at 0.3 s it is dark. */
  lemma BlinkExamples(fade: UnitCurve)
    ensures DeathFrameAt(0.1, fade) == Solid(Red)
    ensures DeathFrameAt(0.3, fade) == Solid(Black)
  {
  }

  /** `updateDeathAnimation`: after 3.5 s death ends and the health bar is
      marked for redraw; before that the current death frame is shown and
      the state is untouched. */
  function UpdateDeath(s: State, now: real, fade: UnitCurve): (r: Step)
    ensures |r.shown| <= 1
    ensures r.state.playerHealth == s.playerHealth && r.state.startupMode == s.startupMode
    ensures !s.deathActive ==> r == Step(s, [])
    ensures r.shown != [] <==> r.state.deathActive
    ensures r.state.deathActive ==> r.state == s && now - s.deathStartTime < TotalDuration
    ensures s.deathActive && !r.state.deathActive ==>
      && now - s.deathStartTime >= TotalDuration
      && r.state == s.(deathActive := false, healthChanged := true)
    ensures forall f :: f in r.shown ==> f.DeathFrame? && |f.pixels| == NumLeds
  {
    if !s.deathActive then Step(s, [])
    else
      var elapsed := now - s.deathStartTime;
      if elapsed >= TotalDuration then
        Step(s.(deathActive := false, healthChanged := true), [])
      else
        Step(s, [DeathFrame(DeathFrameAt(elapsed, fade))])
  }
}

=== FILE: flash_effect.dfy ===
/** The damage flash (`startFlashEffect` / `updateFlashEffect`): a white
    overlay on the health bar whose intensity decays to nothing over the
    flash's duration. */
module FlashEffect {
  import opened Numeric
  import opened Pixels
  import opened ColorRamp
  import opened GameState

  /** `startFlashEffect`: a flash of `duration` seconds begins now. */
  function StartFlash(s: State, now: real, duration: real): (r: State)
    ensures r.flashActive && r.flashStartTime == now && r.flashDuration == duration
    ensures r.(flashActive := s.flashActive, flashStartTime := s.flashStartTime, flashDuration := s.flashDuration) == s
  {
    s.(flashDuration := duration, flashStartTime := now, flashActive := true)
  }

  /** When the flash in progress ends, in seconds since boot. */
  function FlashEnd(s: State): real {
    s.flashStartTime + s.flashDuration
  }

  /** `(uint8_t)(flashIntensity * 255)`: the grey level of the flash. */
  function FlashWhite(intensity: real): (w: Byte)
    requires 0.0 <= intensity <= 1.0
    ensures w as real <= intensity * 255.0 < w as real + 1.0
    ensures intensity == 0.0 ==> w == 0
    ensures intensity == 1.0 ==> w == 255
  {
    ToByte(intensity * 255.0)
  }

  /** The blend of `c` toward `w` by the fraction `t` of the gap between
      them. */
  function Mix(w: real, t: real, c: real): real {
    c + Scale(t, w - c)
  }

  /** The blend is the firmware's `white * t + base * (1 - t)`. */
  lemma MixIsWeightedSum(w: real, t: real, c: real)
    ensures Mix(w, t, c) == w * t + c * (1.0 - t)
  {
  }

  /** A mix of two values lies between them. */
  lemma MixBounds(w: real, t: real, c: real)
    requires 0.0 <= t <= 1.0
    ensures w <= c ==> w <= Mix(w, t, c) <= c
    ensures c <= w ==> c <= Mix(w, t, c) <= w
  {
    ScaleBetween(t, w - c);
  }

  /** One channel of the blend `(uint8_t)(white * I + health * (1 - I))`:
      the integer part of the weighted sum, so it lies between the health
      channel and the flash grey, and is the health channel when the
      intensity is zero. The grey `white` already carries the factor `I`,
      so the intensity is applied twice: at `I = 0.5` an unlit pixel shows
      63, not 127. */
  function BlendChannel(white: Byte, intensity: real, base: Byte): (v: Byte)
    requires 0.0 <= intensity <= 1.0
    ensures v as real <= white as real * intensity + base as real * (1.0 - intensity) < v as real + 1.0
    ensures white <= base ==> white <= v <= base
    ensures base <= white ==> base <= v <= white
    ensures intensity == 0.0 ==> v == base
    ensures intensity == 1.0 ==> v == white
  {
    MixBounds(white as real, intensity, base as real);
    MixIsWeightedSum(white as real, intensity, base as real);
    ToByte(Mix(white as real, intensity, base as real))
  }

  /** Channel `v` lies between `a` and `b`, whichever is larger. */
  predicate Between(v: Byte, a: Byte, b: Byte) {
    (a <= b ==> a <= v <= b) && (b <= a ==> b <= v <= a)
  }

  /** The flash overlay applied to one health-bar pixel: every channel lies
      between the pixel's own channel and the flash grey. */
  function BlendPixel(c: RGB, intensity: real): (p: RGB)
    requires 0.0 <= intensity <= 1.0
    ensures Between(p.r, c.r, FlashWhite(intensity))
    ensures Between(p.g, c.g, FlashWhite(intensity))
    ensures Between(p.b, c.b, FlashWhite(intensity))
    ensures intensity == 0.0 ==> p == c
    ensures intensity == 1.0 ==> p == White
  {
    var w := FlashWhite(intensity);
    RGB(BlendChannel(w, intensity, c.r), BlendChannel(w, intensity, c.g), BlendChannel(w, intensity, c.b))
  }

  /** The frame `updateFlashEffect` draws at a given intensity: each
      health-bar pixel with the flash blended over it. */
  function FlashFrameAt(h: int, intensity: real): (px: seq<RGB>)
    requires 0 <= h <= 100
    requires 0.0 <= intensity <= 1.0
    ensures |px| == NumLeds
    ensures intensity == 0.0 ==> px == HealthBarFrame(h)
    ensures intensity == 1.0 ==> px == Solid(White)
    ensures forall i :: LitCount(h) <= i < NumLeds ==> px[i].r == px[i].g == px[i].b
    ensures forall i :: 0 <= i < NumLeds ==> px[i].b <= FlashWhite(intensity)
    ensures forall i :: 0 <= i < LitCount(h) ==>
      var c, w := HealthColor(h), FlashWhite(intensity);
      Between(px[i].r, c.r, w) && Between(px[i].g, c.g, w) && Between(px[i].b, c.b, w)
  {
    var bar := HealthBarFrame(h);
    seq(NumLeds, i requires 0 <= i < NumLeds => BlendPixel(bar[i], intensity))
  }

  /** Past the lit part of the bar the flash shows a grey whose level is
      the flash grey scaled by the intensity a second time: the integer
      part of `FlashWhite(I) * I`. */
  lemma UnlitGrey(h: int, intensity: real)
    requires 0 <= h <= 100
    requires 0.0 <= intensity <= 1.0
    ensures forall i :: LitCount(h) <= i < NumLeds ==>
      var g := FlashFrameAt(h, intensity)[i].r;
      g as real <= FlashWhite(intensity) as real * intensity < g as real + 1.0
  {
    var px, bar := FlashFrameAt(h, intensity), HealthBarFrame(h);
    forall i | LitCount(h) <= i < NumLeds
      ensures px[i].r as real <= FlashWhite(intensity) as real * intensity < px[i].r as real + 1.0
    {
      assert bar[i] == Black;
      assert px[i] == BlendPixel(bar[i], intensity);
    }
  }

  /** `updateFlashEffect`: once the duration has elapsed the flash turns
      off without drawing and without marking the health bar for redraw;
      before that it draws the overlay at intensity `curve(remaining /
      duration)`. */
  function UpdateFlash(s: State, now: real, curve: UnitCurve): (r: Step)
    requires Valid(s)
    ensures Valid(r.state)
    ensures |r.shown| <= 1
    ensures !s.flashActive ==> r == Step(s, [])
    ensures r.shown != [] <==> r.state.flashActive
    ensures r.state.flashActive ==> r.state == s && now < FlashEnd(s)
    ensures s.flashActive && !r.state.flashActive ==>
      now >= FlashEnd(s) && r.state == s.(flashActive := false)
    ensures forall f :: f in r.shown ==> f.FlashFrame? && |f.pixels| == NumLeds
    ensures r.shown != [] ==>
      exists intensity :: 0.0 <= intensity <= 1.0 &&
        r.shown == [FlashFrame(FlashFrameAt(s.playerHealth, intensity))]
  {
    if !s.flashActive then Step(s, [])
    else
      var elapsedTime := now - s.flashStartTime;
      var remainingTime := s.flashDuration - elapsedTime;
      if remainingTime <= 0.0 then
        Step(s.(flashActive := false), [])
      else
        var normalizedTime := remainingTime / s.flashDuration;
        Step(s, [FlashFrame(FlashFrameAt(s.playerHealth, Ease(curve, normalizedTime)))])
  }
}

=== FILE: game_state.dfy ===
/** The controller's global state (the firmware's file-level variables) and
    the values one control-loop step produces. */
module GameState {
  import opened Numeric
  import opened Pixels

  /** All mutable globals of the animation core. Times are seconds since
      boot (`millis() / 1000.0`). */
  datatype State = State(
    startupMode: bool,
    flashActive: bool,
    flashStartTime: real,
    flashDuration: real,
    playerHealth: int,
    healthChanged: bool,
    deathActive: bool,
    deathStartTime: real)

  /** The globals as initialised at boot. */
  const Init := State(
    startupMode := true,
    flashActive := false,
    flashStartTime := 0.0,
    flashDuration := 0.0,
    playerHealth := 100,
    healthChanged := true,
    deathActive := false,
    deathStartTime := 0.0)

  /** What the firmware relies on without checking: health stays a
      percentage, an active flash has a positive duration (it is only ever
      started with one), and no effect runs before the first message. */
  predicate Valid(s: State) {
    && 0 <= s.playerHealth <= 100
    && (s.flashActive ==> s.flashDuration > 0.0)
    && (s.startupMode ==> !s.flashActive && !s.deathActive)
  }

  /** One frame pushed to the strip with `FastLED.show()`, tagged with the
      effect that rendered it. The rainbow is kept as hue indices: the
      library's HSV-to-RGB conversion is not modelled. */
  datatype Frame =
    | RainbowFrame(hues: seq<Byte>)
    | DeathFrame(pixels: seq<RGB>)
    | FlashFrame(pixels: seq<RGB>)
    | HealthFrame(pixels: seq<RGB>)
  {
    /** The effect that drew this frame. */
    function By(): Effect {
      match this
      case RainbowFrame(_) => Startup
      case DeathFrame(_) => Death
      case FlashFrame(_) => Flash
      case HealthFrame(_) => HealthBar
    }
  }

  /** The four effects, in decreasing priority. */
  datatype Effect = Startup | Death | Flash | HealthBar

  /** The state after an update and the frames it pushed, in order. */
  datatype Step = Step(state: State, shown: seq<Frame>) {
    /** This step pushed a frame and `e` drew it. */
    predicate Drew(e: Effect) {
      shown != [] && shown[0].By() == e
    }
  }

  /** The two easing curves: `pow(x, 2.5)` of the flash and `pow(x, 0.4)`
      of the death fade. */
  datatype Curves = Curves(flashFade: UnitCurve, deathFade: UnitCurve)
}

=== FILE: main_loop.dfy ===
/** The firmware's life as a sequence of events: each text message the
    socket delivers is handled by `processMessage`, and each pass through
    `loop()` runs one animation tick. */
module MainLoop {
  import opened Numeric
  import opened Pixels
  import opened GameState
  import opened Rainbow
  import opened ColorRamp
  import opened DeathEffect
  import opened Router
  import opened Arbiter

  /** A message received at `atMs`, or a control-loop tick at `atMs`. */
  datatype Event = Message(atMs: nat, text: string) | TickAt(atMs: nat)

  /** The number of ticks among `events`. */
  function TickCount(events: seq<Event>): (n: nat)
    ensures n <= |events|
  {
    if events == [] then 0 else (if events[0].TickAt? then 1 else 0) + TickCount(events[1..])
  }

  /** Whether any of `events` is a message. */
  predicate HasMessage(events: seq<Event>) {
    exists i :: 0 <= i < |events| && events[i].Message?
  }

  /** One event applied to the state. */
  function Apply(s: State, e: Event, curves: Curves, parse: Parsers): (r: Step)
    requires Valid(s)
    ensures Valid(r.state)
    ensures |r.shown| <= (if e.TickAt? then 1 else 0)
  {
    match e
    case Message(t, text) => Step(ProcessMessage(s, t, text, parse), [])
    case TickAt(t) => Tick(s, t, curves)
  }

  /** Every event in order, collecting the frames pushed to the strip. */
  function Run(s: State, events: seq<Event>, curves: Curves, parse: Parsers): (r: Step)
    requires Valid(s)
    ensures Valid(r.state)
    ensures |r.shown| <= TickCount(events)
    ensures !s.startupMode ==> !r.state.startupMode
    decreases |events|
  {
    if events == [] then
      Step(s, [])
    else
      var first := Apply(s, events[0], curves, parse);
      var rest := Run(first.state, events[1..], curves, parse);
      Step(rest.state, first.shown + rest.shown)
  }

  /** Startup mode lasts exactly until the first message: a run leaves it
      on if and only if no message arrived. */
  lemma {:induction false} StartupUntilFirstMessage(s: State, events: seq<Event>, curves: Curves, parse: Parsers)
    requires Valid(s) && s.startupMode
    ensures Run(s, events, curves, parse).state.startupMode <==> !HasMessage(events)
    decreases |events|
  {
    if events != [] {
      var first := Apply(s, events[0], curves, parse);
      if events[0].TickAt? {
        assert first.state == s;
        StartupUntilFirstMessage(s, events[1..], curves, parse);
        if HasMessage(events) {
          var i :| 0 <= i < |events| && events[i].Message?;
          assert events[1..][i - 1].Message?;
        }
      } else {
        assert HasMessage(events) by {
          assert events[0].Message?;
        }
      }
    }
  }

  /** Until the first message nothing changes and only the rainbow is
      drawn, one frame per tick. */
  lemma {:induction false} RainbowUntilFirstMessage(s: State, events: seq<Event>, curves: Curves, parse: Parsers)
    requires Valid(s) && s.startupMode && !HasMessage(events)
    ensures var r := Run(s, events, curves, parse);
      && r.state == s
      && |r.shown| == |events|
      && forall i :: 0 <= i < |r.shown| ==> r.shown[i] == RainbowFrame(RainbowHues(events[i].atMs))
    decreases |events|
  {
    if events != [] {
      assert events[0].TickAt? by {
        if events[0].Message? {
          assert HasMessage(events);
        }
      }
      RainbowUntilFirstMessage(s, events[1..], curves, parse);
    }
  }

  /** Once started, the death animation cannot be restarted or cut short
      by any message or tick that comes before its 3.5 s are up, and it is
      the only effect drawn meanwhile. */
  lemma {:induction false} DeathRunsToCompletion(s: State, events: seq<Event>, curves: Curves, parse: Parsers)
    requires Valid(s) && s.deathActive
    requires forall i :: 0 <= i < |events| ==> Seconds(events[i].atMs) - s.deathStartTime < TotalDuration
    ensures var r := Run(s, events, curves, parse);
      && r.state.deathActive && r.state.deathStartTime == s.deathStartTime
      && forall i :: 0 <= i < |r.shown| ==> r.shown[i].By() == Death
    decreases |events|
  {
    if events != [] {
      var first := Apply(s, events[0], curves, parse);
      assert !s.startupMode;
      if events[0].TickAt? {
        DeathOwnsDisplay(s, events[0].atMs, curves);
      }
      assert first.state.deathActive && first.state.deathStartTime == s.deathStartTime;
      assert forall i :: 0 <= i < |first.shown| ==> first.shown[i].By() == Death;
      DeathRunsToCompletion(first.state, events[1..], curves, parse);
    }
  }

  /** The boot state is consistent, and because it starts at full health
      with the bar marked for drawing, any first message that is neither a
      flash nor a health report ends the rainbow and the next tick shows
      an all-green strip. */
  lemma BootShowsFullBar(msgMs: nat, msg: string, tickMs: nat, curves: Curves, parse: Parsers)
    requires !(FlashPrefix <= msg) && !(HealthPrefix <= msg)
    ensures Valid(Init)
    ensures Run(Init, [Message(msgMs, msg), TickAt(tickMs)], curves, parse) ==
      Step(Init.(startupMode := false, healthChanged := false), [HealthFrame(Solid(RGB(0, 255, 0)))])
  {
    var events := [Message(msgMs, msg), TickAt(tickMs)];
    UnknownMessageIgnored(Init, msgMs, msg, parse);
    var s1 := Init.(startupMode := false);
    assert ProcessMessage(Init, msgMs, msg, parse) == s1;
    HealthBarExamples();
    var s2 := s1.(healthChanged := false);
    assert Tick(s1, tickMs, curves) == Step(s2, [HealthFrame(HealthBarFrame(100))]);
    assert Run(s2, [], curves, parse) == Step(s2, []);
    assert events[1..] == [TickAt(tickMs)];
  }

  /** From boot, a first report of 50 ends the rainbow and the next tick
      draws the half bar. */
  lemma FirstReportScenario(curves: Curves, parse: Parsers)
    requires parse.toInt("50") == 50
    ensures Run(Init, [Message(5000, "localPlayer:50"), TickAt(5010)], curves, parse) ==
      Step(Init.(startupMode := false, playerHealth := 50, healthChanged := false),
           [HealthFrame(HealthBarFrame(50))])
  {
    var events := [Message(5000, "localPlayer:50"), TickAt(5010)];
    assert "localPlayer:50"[12..] == "50";
    assert HealthPrefix <= "localPlayer:50";
    PrefixesDisjoint("localPlayer:50");
    var s1 := Init.(startupMode := false, playerHealth := 50);
    assert ProcessMessage(Init, 5000, "localPlayer:50", parse) == s1;
    var s2 := s1.(healthChanged := false);
    assert Tick(s1, 5010, curves) == Step(s2, [HealthFrame(HealthBarFrame(50))]);
    assert Run(s2, [], curves, parse) == Step(s2, []);
    assert events[1..] == [TickAt(5010)];
  }

  /** With health 50 and nothing running, `localPlayer:0` at 10 s starts
      death; the strip is red at 10.1 s and dark at 10.3 s; at 13.6 s death
      is over and the (empty) health bar is drawn. */
  lemma DeathScenario(curves: Curves, parse: Parsers)
    requires parse.toInt("0") == 0
    ensures var s := Init.(startupMode := false, playerHealth := 50, healthChanged := false);
      var r := Run(s, [Message(10000, "localPlayer:0"), TickAt(10100), TickAt(10300), TickAt(13600)],
        curves, parse);
      && r.shown == [
        DeathFrame(Solid(Red)),
        DeathFrame(Solid(Black)),
        HealthFrame(Solid(Black))]
      && !r.state.deathActive && r.state.playerHealth == 0
  {
    var s2 := Init.(startupMode := false, playerHealth := 50, healthChanged := false);
    var events := [Message(10000, "localPlayer:0"), TickAt(10100), TickAt(10300), TickAt(13600)];
    assert "localPlayer:0"[12..] == "0";
    assert HealthPrefix <= "localPlayer:0";
    PrefixesDisjoint("localPlayer:0");
    BlinkExamples(curves.deathFade);
    HealthBarExamples();
    var s3 := s2.(playerHealth := 0, healthChanged := true, deathActive := true, deathStartTime := 10.0);
    assert ProcessMessage(s2, 10000, "localPlayer:0", parse) == s3;
    DeathOwnsDisplay(s3, 10100, curves);
    DeathOwnsDisplay(s3, 10300, curves);
    var s4 := s3.(deathActive := false, healthChanged := false);
    DeathEndRedrawsHealth(s3, 13600, curves);
    assert Run(s4, [], curves, parse) == Step(s4, []);
    assert Run(s3, events[3..], curves, parse) == Step(s4, [HealthFrame(Solid(Black))]);
    assert Run(s3, events[2..], curves, parse).shown ==
      [DeathFrame(Solid(Black)), HealthFrame(Solid(Black))];
    assert Run(s3, events[1..], curves, parse).shown ==
      [DeathFrame(Solid(Red)), DeathFrame(Solid(Black)), HealthFrame(Solid(Black))];
  }
}

=== FILE: numeric.dfy ===
/** Numeric conversions the firmware performs implicitly in C++: casts of
    floating-point values to 8-bit and full-width integers, `fmod`, and the
    conversion of the millisecond clock to seconds. Floats are modelled as
    exact `real`s. */
module Numeric {

  /** An 8-bit unsigned value (C++ `uint8_t`): a colour channel or a hue. */
  type Byte = x: int | 0 <= x < 256

  /** An easing curve abstracted to "some function into [0,1]"; stands for
      the firmware's `pow(x, 2.5)` and `pow(x, 0.4)`. */
  type UnitCurve = f: real -> real | forall x :: 0.0 <= Ease(f, x) <= 1.0 witness (x: real) => 0.0

  /** The curve `f` evaluated at `x`. Every application of a curve goes
      through this function so that the range fact of `UnitCurve` is
      triggered only by these applications, not by every real-valued
      expression the solver meets. */
  function Ease(f: real -> real, x: real): real {
    f(x)
  }

  /** C++ conversion of a floating-point value to an integer type: the
      fractional part is discarded (rounding toward zero). */
  function Trunc(x: real): (n: int)
    ensures x >= 0.0 ==> 0 <= n && n as real <= x < n as real + 1.0
    ensures x < 0.0 ==> n <= 0 && n as real - 1.0 < x <= n as real
  {
    if x >= 0.0 then x.Floor else -((-x).Floor)
  }

  /** The `(uint8_t)` cast of a floating-point value that lies in range. */
  function ToByte(x: real): (b: Byte)
    requires 0.0 <= x < 256.0
    ensures b as real <= x < b as real + 1.0
  {
    Trunc(x)
  }

  /** C's `fmod`: the remainder of `x / m`, keeping the sign of `x`. The
      firmware only divides by the blink cycle, so its properties are
      proved for that divisor (`DeathEffect.BlinkOn`). */
  function FMod(x: real, m: real): (r: real)
    requires m > 0.0
    ensures m == 0.5 && 0.0 <= x ==> 0.0 <= r < 0.5
  {
    x - Trunc(x / m) as real * m
  }

  /** The fraction `t` of `d`, named so that bounds on the product are
      stated once and reused without unfolding it. */
  function Scale(t: real, d: real): real {
    t * d
  }

  /** A fraction `t` of `d` lies between zero and `d`. */
  lemma ScaleBetween(t: real, d: real)
    requires 0.0 <= t <= 1.0
    ensures d >= 0.0 ==> 0.0 <= Scale(t, d) <= d
    ensures d <= 0.0 ==> d <= Scale(t, d) <= 0.0
  {
    if d >= 0.0 {
      MulNonNegative(t, d);
      MulNonNegative(1.0 - t, d);
    } else {
      MulNonNegative(t, -d);
      MulNonNegative(1.0 - t, -d);
    }
  }

  /** A product of non-negative numbers is non-negative. */
  lemma MulNonNegative(a: real, b: real)
    requires a >= 0.0 && b >= 0.0
    ensures a * b >= 0.0
  {
  }

  /** `millis() / 1000.0`: the millisecond clock read as seconds. */
  function Seconds(ms: nat): (t: real)
    ensures t >= 0.0
    ensures t * 1000.0 == ms as real
  {
    ms as real / 1000.0
  }

  /** For non-negative integers, the floor of the exact quotient is C's
      integer division: the exact-real colour ramp agrees with the integer
      formula. */
  lemma FloorOfQuotient(n: int, d: int)
    requires n >= 0 && d > 0
    ensures (n as real / d as real).Floor == n / d
  {
    var q, r := n / d, n % d;
    var dr := d as real;
    var x := n as real / dr;
    assert n == q * d + r && 0 <= r < d;
    CastProduct(q, d);
    assert n as real == q as real * dr + r as real;
    assert x * dr == n as real;
    if x < q as real {
      MulPositive(q as real - x, dr);
      assert false;
    }
    if x >= q as real + 1.0 {
      MulNonNegative(x - q as real - 1.0, dr);
      assert false;
    }
  }

  lemma MulPositive(a: real, b: real)
    requires a > 0.0 && b > 0.0
    ensures a * b > 0.0
  {
  }

  lemma CastProduct(a: int, b: int)
    ensures (a * b) as real == a as real * b as real
  {
  }

  /** Integer division by a positive divisor is monotone in the dividend. */
  lemma DivMonotone(a: int, b: int, d: int)
    requires 0 <= a <= b && d > 0
    ensures a / d <= b / d
  {
    var qa, qb := a / d, b / d;
    assert qa * d <= a && b < qb * d + d;
    if qa > qb {
      MulLeInt(qb + 1, qa, d);
      assert false;
    }
  }

  /** Multiplying by a positive factor keeps the order. */
  lemma MulLeInt(x: int, y: int, d: int)
    requires x <= y && d > 0
    ensures x * d <= y * d
  {
  }
}

=== FILE: pixels.dfy ===
/** The LED frame buffer: a fixed number of RGB pixels that every effect
    overwrites completely before it is pushed to the strip. */
module Pixels {
  import opened Numeric

  /** `NUM_LEDS`: the length of the strip. */
  const NumLeds: nat := 144

  /** `NUM_LEDS / 2` in integer arithmetic: the pixels on each half. */
  const HalfLeds: nat := NumLeds / 2

  /** FastLED's `CRGB`: three 8-bit channels. */
  datatype RGB = RGB(r: Byte, g: Byte, b: Byte)

  const Black := RGB(0, 0, 0)
  const Red := RGB(255, 0, 0)
  const White := RGB(255, 255, 255)

  /** `fill_solid(leds, NUM_LEDS, c)`. */
  function Solid(c: RGB): (px: seq<RGB>)
    ensures |px| == NumLeds
    ensures forall i :: 0 <= i < |px| ==> px[i] == c
  {
    seq(NumLeds, _ => c)
  }

  /** Pixel `i` and pixel `NumLeds - 1 - i` always agree. */
  ghost predicate Mirrored(px: seq<RGB>)
    requires |px| == NumLeds
  {
    forall i :: 0 <= i < NumLeds ==> px[i] == px[NumLeds - 1 - i]
  }
}

=== FILE: rainbow.dfy ===
/** The startup animation (`updateStartupAnimation`): a rainbow that scrolls
    along the strip with a five-second period. Only the hue indices are
    modelled; FastLED turns them into colours. */
module Rainbow {
  import opened Numeric
  import opened Pixels

  /** One full hue cycle, in milliseconds. */
  const PeriodMs: nat := 5000

  /** `(uint8_t)((millis() % 5000) * 255 / 5000)`: the hue of pixel 0. */
  function BaseHue(ms: nat): (hue: Byte)
    ensures hue <= 254
    ensures hue * PeriodMs <= (ms % PeriodMs) * 255 < hue * PeriodMs + PeriodMs
  {
    (ms % PeriodMs) * 255 / PeriodMs
  }

  /** `i * 255 / NUM_LEDS`: how far pixel `i` is shifted along the hue wheel. */
  function PixelOffset(i: nat): (d: int)
    requires i < NumLeds
    ensures 0 <= d <= 253
  {
    i * 255 / NumLeds
  }

  /** The hue index of every pixel. The sum is stored in a `uint8_t`, so it
      wraps around modulo 256. */
  function RainbowHues(ms: nat): (hues: seq<Byte>)
    ensures |hues| == NumLeds
    ensures hues[0] == BaseHue(ms)
    ensures forall i :: 0 <= i < NumLeds ==> hues[i] == (hues[0] + PixelOffset(i)) % 256
  {
    var base := BaseHue(ms);
    seq(NumLeds, i requires 0 <= i < NumLeds => (base + PixelOffset(i)) % 256)
  }

  /** The pattern repeats every five seconds. */
  lemma RainbowPeriodic(ms: nat)
    ensures RainbowHues(ms + PeriodMs) == RainbowHues(ms)
  {
    assert (ms + PeriodMs) % PeriodMs == ms % PeriodMs;
  }

  /** At time zero pixel `i` carries just its offset; at any other time the
      frame is that one turned around the hue wheel by the base hue: the
      rainbow scrolls without changing shape. */
  lemma RainbowIsRotation(ms: nat)
    ensures forall i :: 0 <= i < NumLeds ==> RainbowHues(0)[i] == PixelOffset(i)
    ensures forall i :: 0 <= i < NumLeds ==>
      RainbowHues(ms)[i] == (RainbowHues(0)[i] + BaseHue(ms)) % 256
  {
    assert BaseHue(0) == 0;
    forall i | 0 <= i < NumLeds
      ensures RainbowHues(0)[i] == PixelOffset(i)
      ensures RainbowHues(ms)[i] == (RainbowHues(0)[i] + BaseHue(ms)) % 256
    {
      PixelHue(0, i);
      PixelHue(ms, i);
      assert (0 + PixelOffset(i)) % 256 == PixelOffset(i);
    }
  }

  /** The hue of pixel `i` at time `ms`: the base hue shifted by the
      pixel's offset. */
  lemma PixelHue(ms: nat, i: nat)
    requires i < NumLeds
    ensures RainbowHues(ms)[i] == (BaseHue(ms) + PixelOffset(i)) % 256
  {
    assert RainbowHues(ms)[0] == BaseHue(ms);
  }

  /** Within one period the base hue only moves forward. */
  lemma BaseHueMonotone(ms1: nat, ms2: nat)
    requires ms1 <= ms2 < PeriodMs
    ensures BaseHue(ms1) <= BaseHue(ms2)
  {
    assert ms1 % PeriodMs == ms1 && ms2 % PeriodMs == ms2;
    assert ms1 * 255 <= ms2 * 255;
    DivMonotone(ms1 * 255, ms2 * 255, PeriodMs);
  }

  /** Across the strip the offsets rise from 0 to 253: pixel 0 carries the
      base hue and the strip spans almost one full hue wheel. */
  lemma OffsetsSpanWheel()
    ensures PixelOffset(0) == 0
    ensures PixelOffset(NumLeds - 1) == 253
    ensures forall i, j :: 0 <= i <= j < NumLeds ==> PixelOffset(i) <= PixelOffset(j)
  {
  }

  /** Half a period after boot the pattern has moved: the first pixel's hue
      has gone from 0 to 127. */
  lemma RainbowMoves()
    ensures RainbowHues(0)[0] == 0
    ensures RainbowHues(2500)[0] == 127
    ensures RainbowHues(0) != RainbowHues(2500)
  {
    assert RainbowHues(2500)[0] == 127;
  }
}

=== FILE: router.dfy ===
/** `processMessage`: the handler for one text message from the game-state
    feed. Two shapes are understood, `flash:<seconds>` and
    `localPlayer:<health>`; anything else only ends the startup rainbow. */
module Router {
  import opened Numeric
  import opened GameState
  import opened DeathEffect
  import opened FlashEffect

  const FlashPrefix := "flash:"
  const HealthPrefix := "localPlayer:"

  /** Arduino's `String::toFloat` and `String::toInt`, applied to the text
      after the prefix. Both are total: unparsable text yields some number. */
  datatype Parsers = Parsers(toFloat: string -> real, toInt: string -> int)

  /** The later of two instants. */
  function Later(a: real, b: real): (m: real)
    ensures m >= a && m >= b && (m == a || m == b)
  {
    if a >= b then a else b
  }

  /** Any message ends startup mode for good and forces a health-bar
      redraw the first time. */
  function ExitStartup(s: State): (r: State)
    ensures !r.startupMode
    ensures s.startupMode ==> r == s.(startupMode := false, healthChanged := true)
    ensures !s.startupMode ==> r == s
  {
    if s.startupMode then s.(startupMode := false, healthChanged := true) else s
  }

  /** A flash trigger of `newDuration` seconds: non-positive durations are
      ignored; otherwise the flash (re)starts unless the one in progress
      has at least that long left. */
  function OnFlash(s: State, now: real, newDuration: real): (r: State)
    ensures newDuration <= 0.0 ==> r == s
    ensures newDuration > 0.0 ==> r.flashActive
    ensures newDuration > 0.0 && !s.flashActive ==> FlashEnd(r) == now + newDuration
    ensures newDuration > 0.0 && s.flashActive ==> FlashEnd(r) == Later(FlashEnd(s), now + newDuration)
    ensures r != s ==> r.flashStartTime == now && r.flashDuration == newDuration
    ensures r.(flashActive := s.flashActive, flashStartTime := s.flashStartTime, flashDuration := s.flashDuration) == s
  {
    if newDuration > 0.0 then
      if !s.flashActive then
        StartFlash(s, now, newDuration)
      else
        var elapsedTime := now - s.flashStartTime;
        var remainingTime := s.flashDuration - elapsedTime;
        if newDuration > remainingTime then StartFlash(s, now, newDuration) else s
    else
      s
  }

  /** The overlap rule as stated for an active flash: it restarts exactly
      when the new duration exceeds the time the current one has left, and
      is otherwise left as it was. */
  lemma FlashOverlap(s: State, now: real, newDuration: real)
    requires s.flashActive && newDuration > 0.0
    ensures var r := OnFlash(s, now, newDuration);
      && (newDuration > s.flashDuration - (now - s.flashStartTime) <==>
            r.flashStartTime == now && r.flashDuration == newDuration && r != s)
      && (newDuration <= s.flashDuration - (now - s.flashStartTime) ==> r == s)
  {
  }

  /** A health report: values outside 0..100 and repeats of the current
      value are dropped; a change marks the bar for redraw, and a drop from
      positive health to zero starts death unless it is already running. */
  function OnHealth(s: State, now: real, newHealth: int): (r: State)
    ensures !(0 <= newHealth <= 100) || newHealth == s.playerHealth ==> r == s
    ensures 0 <= newHealth <= 100 && newHealth != s.playerHealth ==>
      r.playerHealth == newHealth && r.healthChanged
    ensures r.deathActive && !s.deathActive <==>
      newHealth == 0 && s.playerHealth > 0 && !s.deathActive
    ensures s.deathActive ==> r.deathActive && r.deathStartTime == s.deathStartTime
    ensures r.deathActive && !s.deathActive ==> r.deathStartTime == now && !r.flashActive
    ensures !(r.deathActive && !s.deathActive) ==>
      r.(playerHealth := s.playerHealth, healthChanged := s.healthChanged) == s
  {
    if 0 <= newHealth <= 100 && newHealth != s.playerHealth then
      var previousHealth := s.playerHealth;
      var updated := s.(playerHealth := newHealth, healthChanged := true);
      if newHealth == 0 && previousHealth > 0 && !s.deathActive then
        StartDeath(updated, now)
      else
        updated
    else
      s
  }

  /** `processMessage(message)` at time `nowMs`. */
  function ProcessMessage(s: State, nowMs: nat, msg: string, parse: Parsers): (r: State)
    ensures !r.startupMode
    ensures s.startupMode ==> r.healthChanged
    ensures Valid(s) ==> Valid(r)
    ensures s.deathActive ==> r.deathActive && r.deathStartTime == s.deathStartTime
    ensures r.deathActive && !s.deathActive ==>
      && HealthPrefix <= msg && r.playerHealth == 0 && s.playerHealth > 0
      && r.deathStartTime == Seconds(nowMs) && !r.flashActive
    ensures r.playerHealth != s.playerHealth ==> HealthPrefix <= msg && r.healthChanged
  {
    var now := Seconds(nowMs);
    var s1 := ExitStartup(s);
    if FlashPrefix <= msg then
      OnFlash(s1, now, parse.toFloat(msg[|FlashPrefix|..]))
    else if HealthPrefix <= msg then
      OnHealth(s1, now, parse.toInt(msg[|HealthPrefix|..]))
    else
      s1
  }

  /** No message has both prefixes. */
  lemma PrefixesDisjoint(msg: string)
    ensures !(FlashPrefix <= msg && HealthPrefix <= msg)
  {
    if HealthPrefix <= msg {
      assert msg[0] == 'l';
    }
  }

  /** A message of neither shape only ends startup mode. */
  lemma UnknownMessageIgnored(s: State, nowMs: nat, msg: string, parse: Parsers)
    requires !(FlashPrefix <= msg) && !(HealthPrefix <= msg)
    ensures ProcessMessage(s, nowMs, msg, parse) == ExitStartup(s)
  {
  }

  /** A `localPlayer:` value outside 0..100, or equal to the current health,
      changes nothing but the startup exit. */
  lemma HealthMessageDropped(s: State, nowMs: nat, msg: string, parse: Parsers)
    requires HealthPrefix <= msg
    requires var v := parse.toInt(msg[|HealthPrefix|..]); !(0 <= v <= 100) || v == s.playerHealth
    ensures ProcessMessage(s, nowMs, msg, parse) == ExitStartup(s)
  {
    PrefixesDisjoint(msg);
  }

  /** Death starts on a message exactly when it is a `localPlayer:0` report
      while health is positive and no death animation is running. */
  lemma DeathTrigger(s: State, nowMs: nat, msg: string, parse: Parsers)
    ensures var r := ProcessMessage(s, nowMs, msg, parse);
      r.deathActive && !s.deathActive <==>
        && HealthPrefix <= msg && parse.toInt(msg[|HealthPrefix|..]) == 0
        && s.playerHealth > 0 && !s.deathActive
  {
    if HealthPrefix <= msg {
      PrefixesDisjoint(msg);
    }
  }

  /** A `flash:` message never touches health or the death animation, and
      with a positive duration leaves a flash active that lasts at least
      that long: the later of the old and the new end wins. */
  lemma FlashMessage(s: State, nowMs: nat, msg: string, parse: Parsers)
    requires FlashPrefix <= msg
    ensures var r := ProcessMessage(s, nowMs, msg, parse);
      var d, now := parse.toFloat(msg[|FlashPrefix|..]), Seconds(nowMs);
      && r.playerHealth == s.playerHealth
      && r.deathActive == s.deathActive && r.deathStartTime == s.deathStartTime
      && (d <= 0.0 ==> r == ExitStartup(s))
      && (d > 0.0 ==> r.flashActive && FlashEnd(r) >= now + d)
      && (d > 0.0 && s.flashActive ==> FlashEnd(r) == Later(FlashEnd(s), now + d))
  {
  }

  /** The firmware never consults the death flag when a flash arrives: a
      flash triggered during the death animation is recorded, and the
      death animation carries on undisturbed. */
  lemma FlashAcceptedDuringDeath(s: State, nowMs: nat, msg: string, parse: Parsers)
    requires s.deathActive && !s.flashActive
    requires FlashPrefix <= msg && parse.toFloat(msg[|FlashPrefix|..]) > 0.0
    ensures var r := ProcessMessage(s, nowMs, msg, parse);
      && r.flashActive && r.flashStartTime == Seconds(nowMs)
      && r.deathActive && r.deathStartTime == s.deathStartTime
  {
  }

  /** A death report cancels a running flash however long it had left. */
  lemma DeathPreemptsFlash(s: State, nowMs: nat, msg: string, parse: Parsers)
    requires s.flashActive && !s.deathActive && s.playerHealth > 0
    requires HealthPrefix <= msg && parse.toInt(msg[|HealthPrefix|..]) == 0
    ensures var r := ProcessMessage(s, nowMs, msg, parse);
      r.deathActive && !r.flashActive && r.deathStartTime == Seconds(nowMs)
  {
    PrefixesDisjoint(msg);
  }

  /** A flash of 2 s started at boot: at 1 s a 0.5 s trigger is ignored and
      a 1.5 s trigger restarts it. */
  lemma FlashOverlapExample(parse: Parsers)
    requires parse.toFloat("0.5") == 0.5 && parse.toFloat("1.5") == 1.5
    ensures var s := Init.(startupMode := false, flashActive := true, flashStartTime := 0.0, flashDuration := 2.0);
      && ProcessMessage(s, 1000, "flash:0.5", parse) == s
      && ProcessMessage(s, 1000, "flash:1.5", parse) == s.(flashStartTime := 1.0, flashDuration := 1.5)
  {
    assert "flash:0.5"[6..] == "0.5";
    assert "flash:1.5"[6..] == "1.5";
  }
}
